=== FILE: README.md ===
# MCP client: calculator servers and client configuration, modelled in Dafny

This project models two self-contained parts of the `mcp-client` repository, a
Python client library for the Model Context Protocol (MCP).

1. **The demo calculator servers** (`servers/math_server_stdio.py`,
   `servers/math_server_sse.py`). Each server is a handful of tool and resource
   handlers over module-level state: an append-only `calculation_history` list,
   plus `current_result` in the SSE server. Here the state is an immutable record
   threaded through pure functions (`StdioServer`, `SseServer`). A `Handle`
   dispatcher and a `Run` fold over a list of requests turn each server into a
   small state machine, and the invariants are proved over every reachable state.
   The SSE server's state also keeps the last text it handed to the resource
   registry for `calc://current` and `calc://history`. `SseServer.Consistent`
   says those texts always equal what the decorated `get_current_result` /
   `get_history` handlers return. So a client reads the same text whichever of
   the two sources FastMCP serves.
2. **The client's construction and configuration contract**, as the unit tests
   in `tests/test_client.py` pin it down (`ClientConfig`). This covers transport
   choice, the 60-second default timeout, `env:NAME` API-key indirection, the
   `Authorization: Bearer …` header, the config-file search order, server
   selection, and the base-URL check that SSE initialisation performs. The
   environment, the set of existing files and their parsed contents are passed
   in as values. `ClientExamples` restates the tests' sample configuration and
   expected outcomes.

Supporting modules: `Wrappers` (`Option`, `Result`) and `Text`. `Text` covers
Python's `str(int)`, `int(str)` for decimal literals, `"\n".join` and
`str.split("\n")`, with the model's `int(str(n)) == n` proved for every integer and
`split(join(xs)) == xs` proved for every non-empty list of newline-free lines.
`Entries` defines the history line formats both servers share and proves that a
line determines its operands.

## Model

| member | source | states |
|---|---|---|
| Text.ParseIntOfIntToString | servers/math_server_sse.py:91-96 | The model's integer printer and parser are inverse: `ParseInt(IntToString(n)) == Some(n)` for every `n` |
| Text.IntToString | servers/math_server_sse.py:85-87 | Python's `str(n)`: canonical decimal, i.e. `0` for zero and otherwise no leading zero after the optional `-`; starts with `-` exactly for negative `n` and with a digit otherwise; holds no space or newline |
| Text.ParseInt | servers/math_server_sse.py:91-93 | Python's `int(s)` on an optional sign and decimal digits: gives a value exactly for such literals, non-positive after `-` and non-negative otherwise |
| Text.DigitsValuePadded | servers/math_server_sse.py:91-93 | Leading zeros do not change the value of a digit string |
| Text.ParseIntPadded | servers/math_server_sse.py:91-96 | `int()` of any decimal literal, canonical or not (`007`, `+5`, `-0`): an optional sign, any number of leading zeros and the digits of `m` read as `m`, or `-m` after `-` |
| Text.SplitLines | servers/math_server_stdio.py:42-46 | The inverse of the `"\n".join` in `get_history`: at least one piece, none holding a newline |
| Text.JoinLinesSnoc | servers/math_server_stdio.py:42-46 | Appending a line to a non-empty history appends a newline and that line to its `"\n".join` text (`JoinLines`) |
| Text.SplitJoinLines | servers/math_server_stdio.py:42-46 | Splitting the newline-joined text of non-empty, newline-free lines at newlines gives the lines back |
| Entries.AddLineDeterminesOperands | servers/math_server_stdio.py:28-32 | Two `{a} + {b} = {a+b}` lines (`AddLine`, the f-string of both servers) are equal only when both operands are equal |
| Entries.MultiplyLineDeterminesOperands | servers/math_server_stdio.py:35-39 | Two `{a} * {b} = {a*b}` lines (`MultiplyLine`, the f-string of both servers) are equal only when both operands are equal |
| StdioServer.Hello | servers/math_server_stdio.py:21-25 | Returns `Hello, {name}!` and appends exactly `Greeted {name}` (`GreetLine`); earlier entries are unchanged |
| StdioServer.Add | servers/math_server_stdio.py:28-32 | Returns the sum and appends exactly the `{a} + {b} = {sum}` line (`AddLine`); earlier entries are unchanged |
| StdioServer.Multiply | servers/math_server_stdio.py:35-39 | Returns the product and appends exactly the `{a} * {b} = {product}` line (`MultiplyLine`); earlier entries are unchanged |
| StdioServer.GetHistory | servers/math_server_stdio.py:42-46 | Empty history gives `No calculations performed yet.`; otherwise the entries' `"\n".join` (`JoinLines`), which splits back into the entries when none has a newline |
| StdioServer.Handle | servers/math_server_stdio.py:20-46 | Each call answers as its tool does (greeting, sum, product, history text) and extends the history by its own line; `get_history` is the only call that leaves the state unchanged |
| StdioServer.RunHistory | servers/math_server_stdio.py:18-39 | After any sequence of calls, the history is the old history followed by the calls' lines in call order |
| StdioServer.LoggedAllCount | servers/math_server_stdio.py:24-38 | Every call other than `get_history` adds exactly one line |
| StdioServer.GetHistoryFallbackExactlyWhenEmpty | servers/math_server_stdio.py:42-46 | On every reachable state, `get_history` gives the fallback text exactly when nothing was recorded |
| StdioServer.GetHistoryRecoversLines | servers/math_server_stdio.py:42-46 | The `get_history` text splits back into the recorded lines when no greeted name has a newline |
| StdioServer.AddExtendsHistoryText | servers/math_server_stdio.py:28-46 | On a non-empty history, `add` extends the `get_history` text by a newline and its line |
| SseServer.GetHistory | servers/math_server_sse.py:77-82 | Empty history gives `No calculations yet`; otherwise the entries' `"\n".join` (`JoinLines`), which splits back into the entries when none has a newline |
| SseServer.GetCurrentResult | servers/math_server_sse.py:84-87 | No result gives `No result yet`; otherwise `str` of the current result, which reads back as that result |
| SseServer.GetTimestampData | servers/math_server_sse.py:89-100 | Gives a payload exactly when `time` is an integer literal; `timestamp` and `server_time` are that integer, and the message names it |
| SseServer.Add | servers/math_server_sse.py:24-47 | Returns the sum, appends its `AddLine`, makes the sum the current result, and publishes texts equal to the handlers' texts |
| SseServer.Multiply | servers/math_server_sse.py:51-74 | Returns the product, appends its `MultiplyLine`, makes the product the current result, and publishes texts equal to the handlers' texts |
| SseServer.Handle | servers/math_server_sse.py:24-100 | Each request answers as its handler does (sum, product, history text, current text, timestamp payload); reads leave the state unchanged; each tool call appends exactly its own line and sets the current result to its answer |
| SseServer.InitConsistent | servers/math_server_sse.py:102-117 | At start-up, history and result are empty and the initial resource texts equal the handlers' fallback texts |
| SseServer.HandlePreservesConsistent | servers/math_server_sse.py:24-87 | Every request keeps the published `calc://current` / `calc://history` texts equal to the handlers' texts |
| SseServer.RunConsistent | servers/math_server_sse.py:20-87 | Any sequence of requests from a consistent state ends in a consistent state |
| SseServer.CurrentFallbackExactlyWhenNoResult | servers/math_server_sse.py:84-87 | `calc://current` gives `No result yet` exactly when there is no current result |
| SseServer.HistoryFallbackExactlyWhenEmpty | servers/math_server_sse.py:77-82 | On every reachable state, `calc://history` gives the fallback exactly when nothing was calculated |
| SseServer.TimestampEcho | servers/math_server_sse.py:89-97 | A printed integer `n` is echoed as timestamp `n`, server time `n`, and a message naming `n` |
| SseServer.TimestampRejectsNonInteger | servers/math_server_sse.py:98-100 | A time ending in an ASCII character that is neither a digit nor whitespace yields no payload |
| SseServer.PublishedHistoryAfterCalculation | servers/math_server_sse.py:33-47 | Once anything was calculated, the published texts are the joined history and the printed current result |
| ClientConfig.ParseTransport | tests/test_client.py:139-142 | Only `sse` and `stdio` are accepted; `http` fails with "HTTP transport is not supported" |
| ClientConfig.ResolveApiKey | tests/test_client.py:126-137 | `env:NAME` gives the variable's value when set and no credential when unset; any other key is used as given; no key gives none |
| ClientConfig.AuthHeaders | tests/test_client.py:112-124 | An `Authorization` header, `Bearer ` plus the credential, is present exactly when there is a credential |
| ClientConfig.NewClient | tests/test_client.py:112-142 | Construction succeeds exactly for `sse`/`stdio` and carries URL, command and args through; timeout defaults to 60; the `Authorization` header is present exactly when a key resolves and then holds `Bearer ` plus that credential |
| ClientConfig.LiteralKeyHeader | tests/test_client.py:112-119 | For any URL, transport, command, args and timeout, a literal key gives exactly the header `Authorization: Bearer <key>` |
| ClientConfig.EnvKeyHeader | tests/test_client.py:126-137 | `env:NAME` gives `Bearer` plus the variable's value when set; when unset, construction still succeeds with no header |
| ClientConfig.FirstExistingIndex | tests/test_client.py:212-225 | Finds the position of the first existing candidate; every earlier candidate is missing |
| ClientConfig.FirstExisting | tests/test_client.py:212-225 | Finds nothing exactly when no candidate exists; otherwise the first existing candidate, every earlier one being missing |
| ClientConfig.FindConfigFile | tests/test_client.py:208-225 | An explicit path is used when it exists, with no search; otherwise the first existing search path |
| ClientConfig.SearchOrder | tests/test_client.py:212-225 | The cwd `mcp.json` wins, then `~/.mcp.json`, then `~/.config/mcp/mcp.json`, then nothing |
| ClientConfig.SelectServer | tests/test_client.py:146-158 | Succeeds exactly when the selected name (the caller's, else `default_server`, else `default`) has an entry, and then gives that name's entry; otherwise a key error naming it. Each of the three naming cases is stated on its own, including the `default` fallback |
| ClientConfig.FromConfig | tests/test_client.py:146-186 | No file found gives a not-found error; an unparsable file gives the "Invalid JSON" data error; a selection error is passed on; otherwise the client is built from the selected entry |
| ClientConfig.FromConfigCarriesEntry | tests/test_client.py:146-173 | For any found, parsed file and any server naming, the selected entry's URL, command, args and transport carry through, its timeout or 60 applies, and the `Authorization` header is present exactly when its key resolves and then holds `Bearer ` plus that credential; an absent name is a key error |
| ClientConfig.FromConfigInvalidJson | tests/test_client.py:180-186 | A file that is not valid JSON gives the "Invalid JSON" data error |
| ClientConfig.InitializeTarget | tests/test_client.py:430-435 | Initialisation fails with "Base URL is required for SSE transport" exactly for SSE without a non-empty base URL; otherwise it opens the configured endpoint |
| ClientConfig.MissingBaseUrlFailsAtInitialisation | tests/test_client.py:430-435 | An SSE client without a base URL is constructed without error but fails at initialisation |
| ClientExamples.LoadsSpecificServer | tests/test_client.py:146-151 | `remote` loads with its URL, SSE, the default timeout of 60 and its literal key |
| ClientExamples.LoadsDefaultServer | tests/test_client.py:153-158 | With no name, `local` loads with its URL, SSE, timeout 30 and no credential |
| ClientExamples.LoadsStdioServer | tests/test_client.py:160-166 | `stdio_server` loads with `python`, its args and timeout 60 |
| ClientExamples.LoadsEnvKey | tests/test_client.py:168-173 | `env:MCP_TEST_API_KEY` becomes `Bearer` plus the environment's value |
| ClientExamples.ExplicitMissingFileNotFound | tests/test_client.py:175-178 | A missing explicit path is a not-found error even when a search-path file exists |
| ClientExamples.UnknownServerIsKeyError | examples/basic_usage.py:105-106 | Asking for a server the file does not define is a key error naming it |

## Left out

- FastMCP itself is not modelled: tool and resource registration by decorator, `mcp.run`, and how `add_resource` stores or replaces resources. The model keeps only the text each tool hands over. `SseServer.Consistent` shows that this text equals the decorated handler's answer, so the replacement policy does not change what a client reads.
- Resource metadata (`name`, `description`, `mimeType`) is constant in the source and is not modelled.
- SseServer.GetTimestampData: accepts only an optional sign followed by ASCII decimal digits. Python's `int()` also accepts surrounding whitespace, `_` separators and non-ASCII decimal digits (`int("١") == 1`), which the model rejects.
- SseServer.GetTimestampData: gives a payload for integer literals of any length. CPython since 3.11 (and 3.10.7) raises `ValueError` on more than 4300 digits, so the source then returns `None`.
- SseServer.TimestampRejectsNonInteger: covers only times ending in an ASCII character that is neither a digit nor whitespace (tab to carriage return, or space). For other inputs the source and the model can differ, as the two lines above say.
- Text.IntToString: prints integers of any size. CPython refuses to print an `int` of more than 4300 digits, so `str(n)` raises there.
- Text.ParseInt: reads digit strings of any length. CPython's `int()` raises on more than 4300 digits.
- Text.ParseIntPadded: holds for literals of any length. CPython's `int()` raises on more than 4300 digits.
- Text.ParseIntOfIntToString: holds for every integer in the model. In CPython it holds only up to the 4300-digit conversion limit.
- StdioServer.Add: always records its line. In the source, an operand or result beyond 4300 digits makes the f-string raise before anything is appended.
- StdioServer.Multiply: always records its line. In the source, an operand or result beyond 4300 digits makes the f-string raise before anything is appended.
- SseServer.Add: always records its line. In the source, an operand or result beyond 4300 digits makes the f-string raise before anything is appended.
- SseServer.Multiply: always records its line. In the source, an operand or result beyond 4300 digits makes the f-string raise before anything is appended.
- SseServer.GetTimestampData: returns a record, not the `json.dumps` text.
- `hello` with a name containing a newline gives a history line that `"\n".join` cannot tell apart from two lines. `StdioServer.GetHistoryRecoversLines` therefore assumes newline-free names.
- The client implementation (`mcp_client`) is not part of this model. The model follows the behaviour its unit tests assert. Where the model must decide more than the tests pin, such as fixing an error message the tests only search for, a line below says so. The following are left out:
  - The async session lifecycle is left out: `_initialize` beyond the base-URL check, `AsyncExitStack`, `ClientSession`, and the context managers, including the sync-context-manager `RuntimeError`.
  - Server metadata, tools, prompts and resources are left out. The tests only check that these calls are passed to a mock.
  - `MultiServerMCPClient` is left out for the same reason.
- Files and the environment are values, not I/O. A config file is either parsed data or `InvalidJson`. The "missing servers mapping" error is not modelled, and neither is JSON syntax. `Path.resolve()` of an explicit path is the identity.
- ClientConfig.ParseTransport: the `http` rejection carries exactly the message "HTTP transport is not supported". The test (tests/test_client.py:141) only searches the message for that text, so a longer message would also pass it.
- ClientConfig.FromConfig: an unparsable file gives exactly the message "Invalid JSON". The test (tests/test_client.py:185) only searches the message for that text, so a longer message would also pass it.
- ClientConfig.InitializeTarget: the failure carries exactly the message "Base URL is required for SSE transport". The test (tests/test_client.py:434) only searches the message for that text, so a longer message would also pass it.
- ClientConfig.ParseTransport: the tests pin only the `http` rejection. Other unknown keywords are rejected with `UnsupportedTransport`, whose message is not known.
- ClientConfig.AuthHeaders: the model's client holds no header other than `Authorization`. The tests check only whether `Authorization` is present and what it holds. `LiteralKeyHeader`, `EnvKeyHeader` and `ClientExamples.LoadsSpecificServer` state whole header maps under this choice.
- ClientConfig.ResolveApiKey: an empty key or an empty environment value still counts as a credential. The tests do not say whether the implementation drops empty keys.
- ClientConfig.InitializeTarget: no check is modelled for a stdio client without a command. The unit tests cover only the SSE base-URL check.
- ClientConfig.SelectServer: the fallback to a server named `default`, when neither the caller nor the file names one, comes from a comment at examples/basic_usage.py:88-90. No test covers it.
- Per-call keyword overrides of file values in `from_config` are not modelled. The tests pass only `server_name` and `config_path`.

=== FILE: client_config.dfy ===
/**
 * The client's construction and configuration contract: choosing the
 * transport, defaulting the timeout, resolving the API key (literal or
 * `env:NAME`), forming the `Authorization` header, locating and reading the
 * config file, selecting a server entry, and the base-URL check that SSE
 * initialisation performs before opening any connection. The environment,
 * the existing files and their parsed contents are passed in as values.
 */
module ClientConfig {
  import opened Wrappers

  const DefaultTimeout := 60
  /** Marker prefix of an API key that names an environment variable. */
  const EnvPrefix := "env:"
  const AuthorizationHeader := "Authorization"
  const BearerPrefix := "Bearer "
  /** Server name tried when neither the caller nor the file names one. */
  const FallbackServerName := "default"

  const HttpNotSupportedMessage := "HTTP transport is not supported"
  const MissingBaseUrlMessage := "Base URL is required for SSE transport"
  const InvalidJsonMessage := "Invalid JSON"

  datatype Transport = Stdio | Sse

  datatype Error =
    /** `ValueError` raised by the constructor. */
    | ConfigError(message: string)
    /** A transport keyword other than `sse`, `stdio` and `http`. */
    | UnsupportedTransport(name: string)
    /** `FileNotFoundError`: no config file was found. */
    | FileNotFound
    /** `MCPDataError`: the config file does not parse. */
    | DataError(message: string)
    /** `KeyError`: the selected server has no entry. */
    | KeyNotFound(server: string)
    /** `MCPConnectionError` raised while initialising. */
    | ConnectionError(message: string)

  type Environment = map<string, string>

  /** The settings a constructed client holds. */
  datatype Client = Client(
    baseUrl: Option<string>,
    transport: Transport,
    command: Option<string>,
    args: seq<string>,
    timeout: int,
    headers: map<string, string>)

  predicate HasPrefix(s: string, prefix: string)
  {
    |prefix| <= |s| && s[..|prefix|] == prefix
  }

  /** The transport keyword as the constructor reads it. */
  function ParseTransport(name: string): (r: Result<Transport, Error>)
    ensures r.Success? <==> name == "sse" || name == "stdio"
    ensures r.Success? ==> (r.value == Sse <==> name == "sse")
    ensures name == "http" ==> r == Failure(ConfigError(HttpNotSupportedMessage))
  {
    if name == "sse" then Success(Sse)
    else if name == "stdio" then Success(Stdio)
    else if name == "http" then Failure(ConfigError(HttpNotSupportedMessage))
    else Failure(UnsupportedTransport(name))
  }

  /**
   * The credential an `api_key` value stands for: `env:NAME` reads variable
   * `NAME` (absent when unset, which is not an error); any other value is the
   * key itself.
   */
  function ResolveApiKey(apiKey: Option<string>, env: Environment): (r: Option<string>)
    ensures apiKey.None? ==> r.None?
    ensures apiKey.Some? && !HasPrefix(apiKey.value, EnvPrefix) ==> r == apiKey
    ensures apiKey.Some? && HasPrefix(apiKey.value, EnvPrefix) ==>
      var name := apiKey.value[|EnvPrefix|..];
      (r.Some? <==> name in env) && (r.Some? ==> r.value == env[name])
  {
    match apiKey
    case None => None
    case Some(key) =>
      if HasPrefix(key, EnvPrefix) then
        var name := key[|EnvPrefix|..];
        if name in env then Some(env[name]) else None
      else Some(key)
  }

  /** Request headers: a bearer `Authorization` header exactly when there is a credential. */
  function AuthHeaders(credential: Option<string>): (h: map<string, string>)
    ensures AuthorizationHeader in h <==> credential.Some?
    ensures credential.Some? ==> h[AuthorizationHeader] == BearerPrefix + credential.value
    ensures forall k :: k in h ==> k == AuthorizationHeader
  {
    match credential
    case Some(key) => map[AuthorizationHeader := BearerPrefix + key]
    case None => map[]
  }

  /**
   * The client constructor: rejects transports other than `sse` and `stdio`,
   * defaults the timeout to 60 seconds, and resolves the API key into headers.
   * A missing base URL is not checked here but at initialisation.
   */
  function NewClient(
    baseUrl: Option<string>, transport: string, command: Option<string>, args: seq<string>,
    apiKey: Option<string>, timeout: Option<int>, env: Environment): (r: Result<Client, Error>)
    ensures r.Success? <==> transport == "sse" || transport == "stdio"
    ensures transport == "http" ==> r == Failure(ConfigError(HttpNotSupportedMessage))
    ensures r.Success? ==>
      && (r.value.transport == Sse <==> transport == "sse")
      && r.value.baseUrl == baseUrl
      && r.value.command == command
      && r.value.args == args
      && r.value.timeout == (if timeout.Some? then timeout.value else DefaultTimeout)
      && (AuthorizationHeader in r.value.headers <==> ResolveApiKey(apiKey, env).Some?)
      && (ResolveApiKey(apiKey, env).Some? ==>
            r.value.headers[AuthorizationHeader] == BearerPrefix + ResolveApiKey(apiKey, env).value)
  {
    match ParseTransport(transport)
    case Failure(e) => Failure(e)
    case Success(t) =>
      Success(Client(baseUrl, t, command, args, timeout.GetOr(DefaultTimeout),
                     AuthHeaders(ResolveApiKey(apiKey, env))))
  }

  /** A literal key is sent as `Bearer <key>`. */
  lemma LiteralKeyHeader(
    baseUrl: Option<string>, transport: string, command: Option<string>, args: seq<string>,
    key: string, timeout: Option<int>, env: Environment)
    requires transport == "sse" || transport == "stdio"
    requires !HasPrefix(key, EnvPrefix)
    ensures NewClient(baseUrl, transport, command, args, Some(key), timeout, env).Success?
    ensures NewClient(baseUrl, transport, command, args, Some(key), timeout, env).value.headers
         == map[AuthorizationHeader := BearerPrefix + key]
  {
  }

  /** `env:NAME` with `NAME` set sends its value; with `NAME` unset the client is built without a header. */
  lemma EnvKeyHeader(baseUrl: Option<string>, name: string, env: Environment)
    ensures var c := NewClient(baseUrl, "sse", None, [], Some(EnvPrefix + name), None, env);
      && c.Success?
      && (name in env ==> c.value.headers == map[AuthorizationHeader := BearerPrefix + env[name]])
      && (name !in env ==> c.value.headers == map[])
  {
  }

  /** One server's entry in the config file, with absent optional fields as `None` (and `args` as empty). */
  datatype ServerEntry = ServerEntry(
    transport: string,
    baseUrl: Option<string>,
    command: Option<string>,
    args: seq<string>,
    apiKey: Option<string>,
    timeout: Option<int>,
    description: Option<string>)

  datatype McpConfig = McpConfig(defaultServer: Option<string>, servers: map<string, ServerEntry>)

  /** A config file as read: parsed, or not valid JSON. */
  datatype ConfigFile = Parsed(config: McpConfig) | InvalidJson

  /** The config-file locations searched, in order, when no path is given. */
  function SearchPaths(cwd: string, home: string): seq<string>
  {
    [cwd + "/mcp.json", home + "/.mcp.json", home + "/.config/mcp/mcp.json"]
  }

  /** Position of the first of `candidates` that exists, or `|candidates|` when none does. */
  function FirstExistingIndex(candidates: seq<string>, existing: set<string>): (i: nat)
    ensures i <= |candidates|
    ensures i < |candidates| ==> candidates[i] in existing
    ensures forall j :: 0 <= j < i ==> candidates[j] !in existing
    decreases |candidates|
  {
    if |candidates| == 0 || candidates[0] in existing then 0
    else 1 + FirstExistingIndex(candidates[1..], existing)
  }

  /** The first of `candidates` that exists, if any. */
  function FirstExisting(candidates: seq<string>, existing: set<string>): (r: Option<string>)
    ensures r.None? <==> forall i :: 0 <= i < |candidates| ==> candidates[i] !in existing
    ensures r.Some? ==> r.value in existing
    ensures r.Some? ==>
      exists i :: 0 <= i < |candidates| && r.value == candidates[i] &&
        forall j :: 0 <= j < i ==> candidates[j] !in existing
  {
    var i := FirstExistingIndex(candidates, existing);
    if i < |candidates| then Some(candidates[i]) else None
  }

  /**
   * Where the config file is read from: an explicit path when it exists
   * (without searching further), otherwise the first existing search path.
   */
  function FindConfigFile(configPath: Option<string>, cwd: string, home: string, existing: set<string>)
    : (r: Option<string>)
    ensures configPath.Some? ==> (r.Some? <==> configPath.value in existing) && (r.Some? ==> r == configPath)
    ensures configPath.None? ==> r == FirstExisting(SearchPaths(cwd, home), existing)
    ensures r.Some? ==> r.value in existing
  {
    match configPath
    case Some(p) => if p in existing then Some(p) else None
    case None => FirstExisting(SearchPaths(cwd, home), existing)
  }

  /** The search order, case by case, with distinct locations. */
  lemma SearchOrder(cwd: string, home: string, existing: set<string>)
    ensures var ps := SearchPaths(cwd, home);
      && (ps[0] in existing ==> FindConfigFile(None, cwd, home, existing) == Some(ps[0]))
      && (ps[0] !in existing && ps[1] in existing ==> FindConfigFile(None, cwd, home, existing) == Some(ps[1]))
      && (ps[0] !in existing && ps[1] !in existing && ps[2] in existing ==>
            FindConfigFile(None, cwd, home, existing) == Some(ps[2]))
      && (ps[0] !in existing && ps[1] !in existing && ps[2] !in existing ==>
            FindConfigFile(None, cwd, home, existing) == None)
  {
  }

  /** The name of the server to load: the caller's, else the file's default, else `default`. */
  function SelectedName(config: McpConfig, serverName: Option<string>): string
  {
    serverName.GetOr(config.defaultServer.GetOr(FallbackServerName))
  }

  /** The server entry used: the named one, else the file's default, else `default`. */
  function SelectServer(config: McpConfig, serverName: Option<string>): (r: Result<ServerEntry, Error>)
    ensures serverName.Some? ==> (r.Success? <==> serverName.value in config.servers)
    ensures serverName.Some? && r.Success? ==> r.value == config.servers[serverName.value]
    ensures serverName.None? && config.defaultServer.Some? ==>
      r == (if config.defaultServer.value in config.servers
            then Success(config.servers[config.defaultServer.value])
            else Failure(KeyNotFound(config.defaultServer.value)))
    ensures serverName.None? && config.defaultServer.None? ==>
      r == (if FallbackServerName in config.servers
            then Success(config.servers[FallbackServerName])
            else Failure(KeyNotFound(FallbackServerName)))
    ensures r.Failure? ==> r.error.KeyNotFound? && r.error.server !in config.servers
    ensures r.Success? <==> SelectedName(config, serverName) in config.servers
    ensures r.Success? ==> r.value == config.servers[SelectedName(config, serverName)]
    ensures r.Failure? ==> r.error == KeyNotFound(SelectedName(config, serverName))
  {
    var name := SelectedName(config, serverName);
    if name in config.servers then Success(config.servers[name]) else Failure(KeyNotFound(name))
  }

  /** `from_config`: locate and read the file, select the entry, and construct the client from it. */
  function FromConfig(
    files: map<string, ConfigFile>, cwd: string, home: string,
    configPath: Option<string>, serverName: Option<string>, env: Environment): (r: Result<Client, Error>)
    ensures FindConfigFile(configPath, cwd, home, files.Keys).None? ==> r == Failure(FileNotFound)
    ensures r.Success? ==>
      var path := FindConfigFile(configPath, cwd, home, files.Keys).value;
      && files[path].Parsed?
      && SelectServer(files[path].config, serverName).Success?
      && var e := SelectServer(files[path].config, serverName).value;
      NewClient(e.baseUrl, e.transport, e.command, e.args, e.apiKey, e.timeout, env) == r
    ensures var found := FindConfigFile(configPath, cwd, home, files.Keys);
      found.Some? && files[found.value].InvalidJson? ==> r == Failure(DataError(InvalidJsonMessage))
    ensures var found := FindConfigFile(configPath, cwd, home, files.Keys);
      found.Some? && files[found.value].Parsed? ==>
        match SelectServer(files[found.value].config, serverName)
        case Failure(err) => r == Failure(err)
        case Success(e) => r == NewClient(e.baseUrl, e.transport, e.command, e.args, e.apiKey, e.timeout, env)
  {
    match FindConfigFile(configPath, cwd, home, files.Keys)
    case None => Failure(FileNotFound)
    case Some(path) =>
      match files[path]
      case InvalidJson => Failure(DataError(InvalidJsonMessage))
      case Parsed(config) =>
        match SelectServer(config, serverName)
        case Failure(e) => Failure(e)
        case Success(e) => NewClient(e.baseUrl, e.transport, e.command, e.args, e.apiKey, e.timeout, env)
  }

  /**
   * Whichever way the file is found and the server named, the selected entry
   * loads with its own fields, its own timeout or 60, and its resolved key;
   * a name the file lacks is a key error naming it.
   */
  lemma FromConfigCarriesEntry(
    files: map<string, ConfigFile>, cwd: string, home: string,
    configPath: Option<string>, serverName: Option<string>, env: Environment)
    requires FindConfigFile(configPath, cwd, home, files.Keys).Some?
    requires files[FindConfigFile(configPath, cwd, home, files.Keys).value].Parsed?
    ensures var config := files[FindConfigFile(configPath, cwd, home, files.Keys).value].config;
      var name := SelectedName(config, serverName);
      var r := FromConfig(files, cwd, home, configPath, serverName, env);
      && (name !in config.servers ==> r == Failure(KeyNotFound(name)))
      && (name in config.servers && config.servers[name].transport in {"sse", "stdio"} ==>
            var e := config.servers[name];
            && r.Success?
            && r.value.baseUrl == e.baseUrl
            && r.value.command == e.command
            && r.value.args == e.args
            && r.value.timeout == (if e.timeout.Some? then e.timeout.value else DefaultTimeout)
            && (r.value.transport == Stdio <==> e.transport == "stdio")
            && (AuthorizationHeader in r.value.headers <==> ResolveApiKey(e.apiKey, env).Some?)
            && (ResolveApiKey(e.apiKey, env).Some? ==>
                  r.value.headers[AuthorizationHeader] == BearerPrefix + ResolveApiKey(e.apiKey, env).value))
  {
  }

  /** A file that does not parse is reported as a data error, whatever server is asked for. */
  lemma FromConfigInvalidJson(
    files: map<string, ConfigFile>, path: string, serverName: Option<string>, env: Environment)
    requires path in files && files[path] == InvalidJson
    ensures FromConfig(files, "", "", Some(path), serverName, env) == Failure(DataError(InvalidJsonMessage))
  {
  }

  /** What initialising a client opens. */
  datatype Endpoint = SseEndpoint(url: string) | StdioProcess(command: Option<string>, args: seq<string>)

  /**
   * The check `_initialize` makes before any I/O: an SSE client needs a
   * non-empty base URL, else a connection error.
   */
  function InitializeTarget(c: Client): (r: Result<Endpoint, Error>)
    ensures r.Failure? <==> c.transport == Sse && (c.baseUrl.None? || c.baseUrl.value == "")
    ensures r.Failure? ==> r.error == ConnectionError(MissingBaseUrlMessage)
    ensures r.Success? && c.transport == Sse ==> r.value == SseEndpoint(c.baseUrl.value)
    ensures r.Success? && c.transport == Stdio ==> r.value == StdioProcess(c.command, c.args)
  {
    match c.transport
    case Sse =>
      if c.baseUrl.None? || c.baseUrl.value == "" then Failure(ConnectionError(MissingBaseUrlMessage))
      else Success(SseEndpoint(c.baseUrl.value))
    case Stdio => Success(StdioProcess(c.command, c.args))
  }

  /** An SSE client built without a base URL is constructed, then fails to initialise. */
  lemma MissingBaseUrlFailsAtInitialisation(env: Environment)
    ensures var c := NewClient(None, "sse", None, [], None, None, env);
      c.Success? && InitializeTarget(c.value) == Failure(ConnectionError(MissingBaseUrlMessage))
  {
  }
}

=== FILE: client_examples.dfy ===
/**
 * The sample configuration the client's unit tests load, and the outcomes
 * they expect, restated over the model.
 */
module ClientExamples {
  import opened Wrappers
  import opened ClientConfig

  const ConfigPath := "/tmp/test_mcp.json"

  const SampleConfig := McpConfig(
    Some("local"),
    map[
      "local" := ServerEntry("sse", Some("http://localhost:8000"), None, [], None, Some(30), Some("Local Test Server")),
      "remote" := ServerEntry("sse", Some("https://remote-mcp.test"), None, [], Some("remote-key-123"), None,
                              Some("Remote Test Server")),
      "env_key_server" := ServerEntry("sse", Some("https://env-key.test"), None, [], Some("env:MCP_TEST_API_KEY"),
                                      Some(90), None),
      "stdio_server" := ServerEntry("stdio", None, Some("python"), ["-m", "mcp.server.cli"], None, Some(60), None)
    ])

  const SampleFiles := map[ConfigPath := Parsed(SampleConfig)]

  /** Loading `remote` by name: its URL, SSE, and the default timeout of 60. */
  lemma LoadsSpecificServer(env: Environment)
    ensures var r := FromConfig(SampleFiles, "", "", Some(ConfigPath), Some("remote"), env);
      && r.Success?
      && r.value.baseUrl == Some("https://remote-mcp.test")
      && r.value.transport == Sse
      && r.value.timeout == DefaultTimeout
      && r.value.headers == map[AuthorizationHeader := BearerPrefix + "remote-key-123"]
  {
    var key := "remote-key-123";
    assert key[0] != EnvPrefix[0];
    assert !HasPrefix(key, EnvPrefix);
  }

  /** Loading with no server name uses `default_server`, with its own timeout and no credential. */
  lemma LoadsDefaultServer(env: Environment)
    ensures var r := FromConfig(SampleFiles, "", "", Some(ConfigPath), None, env);
      && r.Success?
      && r.value.baseUrl == Some("http://localhost:8000")
      && r.value.transport == Sse
      && r.value.timeout == 30
      && AuthorizationHeader !in r.value.headers
  {
  }

  /** A stdio entry carries its command, arguments and timeout through. */
  lemma LoadsStdioServer(env: Environment)
    ensures var r := FromConfig(SampleFiles, "", "", Some(ConfigPath), Some("stdio_server"), env);
      && r.Success?
      && r.value.transport == Stdio
      && r.value.command == Some("python")
      && r.value.args == ["-m", "mcp.server.cli"]
      && r.value.timeout == 60
  {
  }

  /** An `env:` key is read from the environment when the client is built. */
  lemma LoadsEnvKey(value: string)
    ensures var env := map["MCP_TEST_API_KEY" := value];
      var r := FromConfig(SampleFiles, "", "", Some(ConfigPath), Some("env_key_server"), env);
      && r.Success?
      && r.value.headers[AuthorizationHeader] == BearerPrefix + value
  {
  }

  /** An explicit path that does not exist is not found, even when a search path exists. */
  lemma ExplicitMissingFileNotFound(cwd: string, home: string, env: Environment)
    requires "non_existent_file.json" != cwd + "/mcp.json"
    ensures FromConfig(map[cwd + "/mcp.json" := Parsed(SampleConfig)], cwd, home,
                       Some("non_existent_file.json"), None, env) == Failure(FileNotFound)
  {
  }

  /** Asking for a server the file does not define is a key error naming it. */
  lemma UnknownServerIsKeyError(env: Environment)
    ensures FromConfig(SampleFiles, "", "", Some(ConfigPath), Some("nope"), env) == Failure(KeyNotFound("nope"))
  {
  }
}

=== FILE: entries.dfy ===
/**
 * The history lines the calculator servers record, one per tool call. Both
 * servers format `add` and `multiply` lines identically; only the stdio server
 * greets.
 */
module Entries {
  import opened Text

  /** The line `hello` records: `Greeted {name}`. */
  function GreetLine(name: string): string
  {
    "Greeted " + name
  }

  /** The line `add` records: `{a} + {b} = {a + b}`. */
  function AddLine(a: int, b: int): string
  {
    IntToString(a) + " + " + IntToString(b) + " = " + IntToString(a + b)
  }

  /** The line `multiply` records: `{a} * {b} = {a * b}`. */
  function MultiplyLine(a: int, b: int): string
  {
    IntToString(a) + " * " + IntToString(b) + " = " + IntToString(a * b)
  }

  /** Position of the first space in `s`, or `|s|` when there is none. */
  function IndexOfSpace(s: string): (i: nat)
    ensures i <= |s|
  {
    if |s| == 0 || s[0] == ' ' then 0 else 1 + IndexOfSpace(s[1..])
  }

  lemma {:induction false} IndexOfSpaceAfterWord(x: string, r: string)
    requires ' ' !in x
    ensures IndexOfSpace(x + " " + r) == |x|
    decreases |x|
  {
    if |x| > 0 {
      assert (x + " " + r)[1..] == x[1..] + " " + r;
      IndexOfSpaceAfterWord(x[1..], r);
    }
  }

  /** Two space-free words followed by a space can only be equal if the words are. */
  lemma SplitAtFirstSpace(x: string, r: string, x': string, r': string)
    requires ' ' !in x && ' ' !in x'
    requires x + " " + r == x' + " " + r'
    ensures x == x' && r == r'
  {
    var s := x + " " + r;
    IndexOfSpaceAfterWord(x, r);
    IndexOfSpaceAfterWord(x', r');
    assert s[..|x|] == x;
    assert (x' + " " + r')[..|x'|] == x';
    assert s[|x| + 1..] == r;
    assert (x' + " " + r')[|x'| + 1..] == r';
  }

  /** Stripping a shared prefix. */
  lemma StripPrefix(p: string, r: string, r': string)
    requires p + r == p + r'
    ensures r == r'
  {
    assert r == (p + r)[|p|..];
    assert r' == (p + r')[|p|..];
  }

  /** An `add` line records its operands: distinct operand pairs give distinct lines. */
  lemma AddLineDeterminesOperands(a: int, b: int, a': int, b': int)
    requires AddLine(a, b) == AddLine(a', b')
    ensures a == a' && b == b'
  {
    OperandsFromLine(a, b, a', b', " + ", IntToString(a + b), IntToString(a' + b'));
  }

  /** A `multiply` line records its operands: distinct operand pairs give distinct lines. */
  lemma MultiplyLineDeterminesOperands(a: int, b: int, a': int, b': int)
    requires MultiplyLine(a, b) == MultiplyLine(a', b')
    ensures a == a' && b == b'
  {
    OperandsFromLine(a, b, a', b', " * ", IntToString(a * b), IntToString(a' * b'));
  }

  /** Regroups `x + op + y + " = " + z` as the word `x`, a space, and the rest. */
  lemma LineShape(x: string, op: string, y: string, z: string)
    requires |op| == 3 && op[0] == ' ' && op[2] == ' '
    ensures x + op + y + " = " + z == x + " " + (op[1..] + (y + " " + ("= " + z)))
  {
  }

  lemma OperandsFromLine(a: int, b: int, a': int, b': int, op: string, z: string, z': string)
    requires op == " + " || op == " * "
    requires IntToString(a) + op + IntToString(b) + " = " + z
          == IntToString(a') + op + IntToString(b') + " = " + z'
    ensures a == a' && b == b'
  {
    var x, x' := IntToString(a), IntToString(a');
    var y, y' := IntToString(b), IntToString(b');
    LineShape(x, op, y, z);
    LineShape(x', op, y', z');
    SplitAtFirstSpace(x, op[1..] + (y + " " + ("= " + z)), x', op[1..] + (y' + " " + ("= " + z')));
    IntToStringInjective(a, a');
    StripPrefix(op[1..], y + " " + ("= " + z), y' + " " + ("= " + z'));
    SplitAtFirstSpace(y, "= " + z, y', "= " + z');
    IntToStringInjective(b, b');
  }
}

=== FILE: sse_server.dfy ===
/**
 * The SSE calculator server (`MathSSE`): `add` and `multiply` tools, three
 * resource handlers, and the module-level `calculation_history` and
 * `current_result`. After each calculation the server hands fresh texts for
 * `calc://current` and `calc://history` to the resource registry; the state
 * keeps the latest text handed over for each.
 */
module SseServer {
  import opened Wrappers
  import opened Text
  import opened Entries

  /** Text of `calc://current` before any calculation. */
  const NoResultText := "No result yet"
  /** Text of `calc://history` before any calculation. */
  const NoHistoryText := "No calculations yet"
  /** Prefix of the message in a timestamp payload. */
  const TimestampMessagePrefix := "Server received request for timestamp "

  datatype State = State(
    history: seq<string>,
    current: Option<int>,
    /** Latest text handed over for `calc://current`. */
    publishedCurrent: string,
    /** Latest text handed over for `calc://history`. */
    publishedHistory: string)

  /** The server as started: no history, no result, and the two initial resource texts. */
  const Init := State([], None, NoResultText, NoHistoryText)

  /** A tool's integer result together with the server state after the call. */
  datatype Reply = Reply(value: int, state: State)

  /** The payload `get_timestamp_data` serialises. */
  datatype TimestampData = TimestampData(timestamp: int, serverTime: int, message: string)

  /** Resource `calc://history`: the lines joined by newlines, or the fallback text. */
  function GetHistory(s: State): (r: string)
    ensures |s.history| == 0 ==> r == NoHistoryText
    ensures |s.history| > 0 ==> r == JoinLines(s.history)
    ensures |s.history| > 0 && NoNewlines(s.history) ==> SplitLines(r) == s.history
  {
    JoinLinesRecoverable(s.history);
    if |s.history| > 0 then JoinLines(s.history) else NoHistoryText
  }

  /** Resource `calc://current`: the last result printed, or the fallback text. */
  function GetCurrentResult(s: State): (r: string)
    ensures s.current.Some? ==> r == IntToString(s.current.value)
    ensures s.current.Some? ==> ParseInt(r) == s.current
    ensures s.current.None? ==> r == NoResultText
  {
    match s.current
    case Some(n) =>
      ParseIntOfIntToString(n);
      IntToString(n)
    case None => NoResultText
  }

  /**
   * Resource template `calc://timestamp/{time}`: the echoed timestamp when
   * `time` reads as an integer, otherwise `None`.
   */
  function GetTimestampData(time: string): (r: Option<TimestampData>)
    ensures r.Some? <==> IsIntLiteral(time)
    ensures r.Some? ==> Some(r.value.timestamp) == ParseInt(time)
    ensures r.Some? ==> r.value.serverTime == r.value.timestamp
    ensures r.Some? ==> r.value.message == TimestampMessagePrefix + IntToString(r.value.timestamp)
  {
    match ParseInt(time)
    case Some(n) => Some(TimestampData(n, n, TimestampMessagePrefix + IntToString(n)))
    case None => None
  }

  /** Records a calculation: append its line, set the current result, publish both texts. */
  function Calculated(s: State, result: int, line: string): (s': State)
    ensures s'.history == s.history + [line]
    ensures s'.current == Some(result)
    ensures s'.publishedCurrent == IntToString(result)
    ensures s'.publishedHistory == JoinLines(s'.history)
  {
    var history := s.history + [line];
    State(history, Some(result), IntToString(result), JoinLines(history))
  }

  /** Tool `add`: the sum; it becomes the current result and its line is recorded and published. */
  function Add(s: State, a: int, b: int): (r: Reply)
    ensures r.value == a + b
    ensures r.state.history == s.history + [AddLine(a, b)]
    ensures r.state.current == Some(r.value)
    ensures r.state.publishedCurrent == GetCurrentResult(r.state)
    ensures r.state.publishedHistory == GetHistory(r.state)
  {
    var result := a + b;
    Reply(result, Calculated(s, result, AddLine(a, b)))
  }

  /** Tool `multiply`: the product; it becomes the current result and its line is recorded and published. */
  function Multiply(s: State, a: int, b: int): (r: Reply)
    ensures r.value == a * b
    ensures r.state.history == s.history + [MultiplyLine(a, b)]
    ensures r.state.current == Some(r.value)
    ensures r.state.publishedCurrent == GetCurrentResult(r.state)
    ensures r.state.publishedHistory == GetHistory(r.state)
  {
    var result := a * b;
    Reply(result, Calculated(s, result, MultiplyLine(a, b)))
  }

  /** A tool call or a resource read. */
  datatype Request =
    | AddCall(a: int, b: int)
    | MultiplyCall(a: int, b: int)
    | ReadHistory
    | ReadCurrent
    | ReadTimestamp(time: string)
  {
    predicate IsRead()
    {
      ReadHistory? || ReadCurrent? || ReadTimestamp?
    }
  }

  datatype Response =
    | IntResponse(n: int)
    | TextResponse(text: string)
    | TimestampResponse(data: Option<TimestampData>)

  /** The line a request records, if it records one. */
  function Logged(q: Request): seq<string>
  {
    match q
    case AddCall(a, b) => [AddLine(a, b)]
    case MultiplyCall(a, b) => [MultiplyLine(a, b)]
    case _ => []
  }

  /** The server's answer to one request and its state afterwards. */
  function Handle(s: State, q: Request): (r: (Response, State))
    ensures q.IsRead() ==> r.1 == s
    ensures r.1.history == s.history + Logged(q)
    ensures !q.IsRead() ==> |r.1.history| == |s.history| + 1 && r.1.history[..|s.history|] == s.history
    ensures !q.IsRead() ==> r.0.IntResponse? && r.1.current == Some(r.0.n)
    ensures q.AddCall? ==> r.0 == IntResponse(q.a + q.b)
    ensures q.MultiplyCall? ==> r.0 == IntResponse(q.a * q.b)
    ensures q.ReadHistory? ==> r.0 == TextResponse(GetHistory(s))
    ensures q.ReadCurrent? ==> r.0 == TextResponse(GetCurrentResult(s))
    ensures q.ReadTimestamp? ==> r.0 == TimestampResponse(GetTimestampData(q.time))
  {
    match q
    case AddCall(a, b) =>
      var reply := Add(s, a, b);
      (IntResponse(reply.value), reply.state)
    case MultiplyCall(a, b) =>
      var reply := Multiply(s, a, b);
      (IntResponse(reply.value), reply.state)
    case ReadHistory => (TextResponse(GetHistory(s)), s)
    case ReadCurrent => (TextResponse(GetCurrentResult(s)), s)
    case ReadTimestamp(time) => (TimestampResponse(GetTimestampData(time)), s)
  }

  /** The state after serving `qs` in order, starting from `s`. */
  function Run(s: State, qs: seq<Request>): State
    decreases |qs|
  {
    if |qs| == 0 then s else Run(Handle(s, qs[0]).1, qs[1..])
  }

  /**
   * The texts handed to the resource registry agree with what the decorated
   * handlers compute, and a result exists exactly when a line was recorded.
   */
  predicate Consistent(s: State)
  {
    && s.publishedCurrent == GetCurrentResult(s)
    && s.publishedHistory == GetHistory(s)
    && (s.current.None? <==> |s.history| == 0)
  }

  lemma InitConsistent()
    ensures Consistent(Init)
    ensures Init.history == [] && Init.current == None
  {
  }

  /** Every request keeps the published texts in step with the handlers. */
  lemma HandlePreservesConsistent(s: State, q: Request)
    requires Consistent(s)
    ensures Consistent(Handle(s, q).1)
  {
  }

  /** On every reachable state, whichever of the two sources serves a read, the text is the same. */
  lemma {:induction false} RunConsistent(s: State, qs: seq<Request>)
    requires Consistent(s)
    ensures Consistent(Run(s, qs))
    decreases |qs|
  {
    if |qs| > 0 {
      HandlePreservesConsistent(s, qs[0]);
      RunConsistent(Handle(s, qs[0]).1, qs[1..]);
    }
  }

  /** `calc://current` shows the fallback text exactly when there is no result yet. */
  lemma CurrentFallbackExactlyWhenNoResult(s: State)
    ensures GetCurrentResult(s) == NoResultText <==> s.current.None?
  {
  }

  /** Every recorded line is non-empty and does not begin like the history fallback text. */
  predicate LinesStartWell(history: seq<string>)
  {
    forall i :: 0 <= i < |history| ==> |history[i]| > 0 && history[i][0] != NoHistoryText[0]
  }

  /** Both recorded line kinds begin with a printed integer, never with the fallback's letter. */
  lemma HandleLineStarts(s: State, q: Request)
    requires LinesStartWell(s.history)
    ensures LinesStartWell(Handle(s, q).1.history)
  {
  }

  lemma {:induction false} RunLineStarts(s: State, qs: seq<Request>)
    requires LinesStartWell(s.history)
    ensures LinesStartWell(Run(s, qs).history)
    decreases |qs|
  {
    if |qs| > 0 {
      HandleLineStarts(s, qs[0]);
      RunLineStarts(Handle(s, qs[0]).1, qs[1..]);
    }
  }

  /** On every reachable state, `calc://history` shows the fallback text exactly when nothing was calculated. */
  lemma {:induction false} HistoryFallbackExactlyWhenEmpty(qs: seq<Request>)
    ensures GetHistory(Run(Init, qs)) == NoHistoryText <==> |Run(Init, qs).history| == 0
  {
    var h := Run(Init, qs).history;
    RunLineStarts(Init, qs);
    if |h| > 0 {
      JoinLinesStartsWithFirst(h);
      assert JoinLines(h)[0] == h[0][0];
    }
  }

  /** A printed integer is always echoed back as that integer, twice, with the message naming it. */
  lemma TimestampEcho(n: int)
    ensures GetTimestampData(IntToString(n))
         == Some(TimestampData(n, n, TimestampMessagePrefix + IntToString(n)))
  {
    ParseIntOfIntToString(n);
  }

  /** The ASCII whitespace Python's `int()` strips from both ends: tab to carriage return, and space. */
  predicate IsAsciiWhitespace(c: char)
  {
    ('\t' <= c <= '\r') || c == ' '
  }

  /**
   * A time ending in an ASCII character that is neither a digit nor
   * whitespace yields no payload (Python's `int()` raises on it too).
   */
  lemma TimestampRejectsNonInteger(time: string)
    requires |time| > 0
    requires time[|time| - 1] < 128 as char
    requires !IsDigit(time[|time| - 1]) && !IsAsciiWhitespace(time[|time| - 1])
    ensures GetTimestampData(time) == None
  {
  }

  /** The published history is the recorded lines joined by newlines once anything was calculated. */
  lemma PublishedHistoryAfterCalculation(s: State, qs: seq<Request>)
    requires Consistent(s)
    requires |Run(s, qs).history| > 0
    ensures Run(s, qs).publishedHistory == JoinLines(Run(s, qs).history)
    ensures Run(s, qs).current.Some?
    ensures Run(s, qs).publishedCurrent == IntToString(Run(s, qs).current.value)
  {
    RunConsistent(s, qs);
  }
}

=== FILE: stdio_server.dfy ===
/**
 * The stdio calculator server (`MathStdio`): four tools over one piece of
 * module-level state, the append-only `calculation_history` list. The state is
 * an immutable record threaded through pure tool functions.
 */
module StdioServer {
  import opened Text
  import opened Entries

  /** What `get_history` answers before any tool has recorded a line. */
  const NoHistoryText := "No calculations performed yet."

  datatype State = State(history: seq<string>)

  /** The server as started: empty history. */
  const Init := State([])

  /** A tool's return value together with the server state after the call. */
  datatype Reply<T> = Reply(value: T, state: State)

  /** `after` is `before` with exactly `line` added at the end; earlier lines keep their place. */
  predicate Appended(before: State, after: State, line: string)
  {
    && |after.history| == |before.history| + 1
    && after.history[..|before.history|] == before.history
    && after.history[|before.history|] == line
  }

  function Record(s: State, line: string): (s': State)
    ensures Appended(s, s', line)
  {
    State(s.history + [line])
  }

  /** Tool `hello`: greets `name` and records the greeting. */
  function Hello(s: State, name: string): (r: Reply<string>)
    ensures r.value == "Hello, " + name + "!"
    ensures Appended(s, r.state, GreetLine(name))
  {
    Reply("Hello, " + name + "!", Record(s, GreetLine(name)))
  }

  /** Tool `add`: the sum, recorded as `{a} + {b} = {sum}`. */
  function Add(s: State, a: int, b: int): (r: Reply<int>)
    ensures r.value == a + b
    ensures Appended(s, r.state, AddLine(a, b))
  {
    var result := a + b;
    Reply(result, Record(s, AddLine(a, b)))
  }

  /** Tool `multiply`: the product, recorded as `{a} * {b} = {product}`. */
  function Multiply(s: State, a: int, b: int): (r: Reply<int>)
    ensures r.value == a * b
    ensures Appended(s, r.state, MultiplyLine(a, b))
  {
    var result := a * b;
    Reply(result, Record(s, MultiplyLine(a, b)))
  }

  /** Tool `get_history`: the recorded lines, one per line, or the fallback text. */
  function GetHistory(s: State): (r: string)
    ensures |s.history| == 0 ==> r == NoHistoryText
    ensures |s.history| > 0 ==> r == JoinLines(s.history)
    ensures |s.history| > 0 && NoNewlines(s.history) ==> SplitLines(r) == s.history
  {
    JoinLinesRecoverable(s.history);
    if |s.history| == 0 then NoHistoryText else JoinLines(s.history)
  }

  /** A call of one of the server's tools. */
  datatype Request =
    | HelloCall(name: string)
    | AddCall(a: int, b: int)
    | MultiplyCall(a: int, b: int)
    | GetHistoryCall

  datatype Response = TextResponse(text: string) | IntResponse(n: int)

  /** The line a call records, if it records one. */
  function Logged(q: Request): seq<string>
  {
    match q
    case HelloCall(name) => [GreetLine(name)]
    case AddCall(a, b) => [AddLine(a, b)]
    case MultiplyCall(a, b) => [MultiplyLine(a, b)]
    case GetHistoryCall => []
  }

  /** The server's answer to one call and its state afterwards. */
  function Handle(s: State, q: Request): (r: (Response, State))
    ensures r.1.history == s.history + Logged(q)
    ensures q.GetHistoryCall? <==> r.1 == s
    ensures q.HelloCall? ==> r.0 == TextResponse("Hello, " + q.name + "!")
    ensures q.AddCall? ==> r.0 == IntResponse(q.a + q.b)
    ensures q.MultiplyCall? ==> r.0 == IntResponse(q.a * q.b)
    ensures q.GetHistoryCall? ==> r.0 == TextResponse(GetHistory(s))
  {
    match q
    case HelloCall(name) =>
      var reply := Hello(s, name);
      (TextResponse(reply.value), reply.state)
    case AddCall(a, b) =>
      var reply := Add(s, a, b);
      (IntResponse(reply.value), reply.state)
    case MultiplyCall(a, b) =>
      var reply := Multiply(s, a, b);
      (IntResponse(reply.value), reply.state)
    case GetHistoryCall =>
      (TextResponse(GetHistory(s)), s)
  }

  /** The state after serving `qs` in order, starting from `s`. */
  function Run(s: State, qs: seq<Request>): State
    decreases |qs|
  {
    if |qs| == 0 then s else Run(Handle(s, qs[0]).1, qs[1..])
  }

  /** The lines a sequence of calls records, in call order. */
  function LoggedAll(qs: seq<Request>): seq<string>
    decreases |qs|
  {
    if |qs| == 0 then [] else Logged(qs[0]) + LoggedAll(qs[1..])
  }

  /** The history is append-only: serving calls extends it by exactly their lines, in order. */
  lemma {:induction false} RunHistory(s: State, qs: seq<Request>)
    ensures Run(s, qs).history == s.history + LoggedAll(qs)
    decreases |qs|
  {
    if |qs| > 0 {
      var s' := Handle(s, qs[0]).1;
      assert Run(s, qs) == Run(s', qs[1..]);
      assert s'.history == s.history + Logged(qs[0]);
      assert LoggedAll(qs) == Logged(qs[0]) + LoggedAll(qs[1..]);
      RunHistory(s', qs[1..]);
      assert s.history + Logged(qs[0]) + LoggedAll(qs[1..]) == s.history + LoggedAll(qs);
    }
  }

  /** Every call except `get_history` adds exactly one line. */
  lemma {:induction false} LoggedAllCount(qs: seq<Request>)
    ensures |LoggedAll(qs)| == |qs| - CountReads(qs)
    decreases |qs|
  {
    if |qs| > 0 {
      LoggedAllCount(qs[1..]);
    }
  }

  function CountReads(qs: seq<Request>): nat
    decreases |qs|
  {
    if |qs| == 0 then 0 else (if qs[0].GetHistoryCall? then 1 else 0) + CountReads(qs[1..])
  }

  /** No recorded line starts like the fallback text, so the fallback is never a real history. */
  lemma LoggedLineStart(q: Request)
    requires !q.GetHistoryCall?
    ensures |Logged(q)[0]| > 0 && Logged(q)[0][0] != NoHistoryText[0]
  {
  }

  lemma {:induction false} LoggedAllLineStarts(qs: seq<Request>)
    ensures forall i :: 0 <= i < |LoggedAll(qs)| ==>
      |LoggedAll(qs)[i]| > 0 && LoggedAll(qs)[i][0] != NoHistoryText[0]
    decreases |qs|
  {
    if |qs| > 0 {
      LoggedAllLineStarts(qs[1..]);
      if !qs[0].GetHistoryCall? {
        LoggedLineStart(qs[0]);
      }
    }
  }

  /**
   * On any state the server can reach, `get_history` answers the fallback text
   * exactly when no line has been recorded.
   */
  lemma {:induction false} GetHistoryFallbackExactlyWhenEmpty(qs: seq<Request>)
    ensures GetHistory(Run(Init, qs)) == NoHistoryText <==> |Run(Init, qs).history| == 0
  {
    var h := Run(Init, qs).history;
    RunHistory(Init, qs);
    LoggedAllLineStarts(qs);
    if |h| > 0 {
      JoinLinesStartsWithFirst(h);
      assert JoinLines(h)[0] == h[0][0];
    }
  }

  /** Calls whose arguments put no newline in the history. */
  predicate NewlineFree(q: Request)
  {
    q.HelloCall? ==> '\n' !in q.name
  }

  lemma {:induction false} LoggedAllNoNewlines(qs: seq<Request>)
    requires forall i :: 0 <= i < |qs| ==> NewlineFree(qs[i])
    ensures NoNewlines(LoggedAll(qs))
    decreases |qs|
  {
    if |qs| > 0 {
      LoggedAllNoNewlines(qs[1..]);
      LoggedNoNewlines(qs[0]);
      NoNewlinesConcat(Logged(qs[0]), LoggedAll(qs[1..]));
    }
  }

  lemma LoggedNoNewlines(q: Request)
    requires NewlineFree(q)
    ensures NoNewlines(Logged(q))
  {
    if q.HelloCall? {
      assert '\n' !in GreetLine(q.name);
    }
  }

  /**
   * The `get_history` text loses nothing: splitting it at newlines gives back
   * the recorded lines, provided no greeted name contains a newline.
   */
  lemma {:induction false} GetHistoryRecoversLines(qs: seq<Request>)
    requires forall i :: 0 <= i < |qs| ==> NewlineFree(qs[i])
    requires |LoggedAll(qs)| > 0
    ensures SplitLines(GetHistory(Run(Init, qs))) == LoggedAll(qs)
  {
    var h := Run(Init, qs).history;
    RunHistory(Init, qs);
    assert h == LoggedAll(qs);
    LoggedAllNoNewlines(qs);
  }

  /** After `add`, the history text is the previous text with one more line. */
  lemma AddExtendsHistoryText(s: State, a: int, b: int)
    requires |s.history| > 0
    ensures GetHistory(Add(s, a, b).state) == GetHistory(s) + "\n" + AddLine(a, b)
  {
    var s' := Add(s, a, b).state;
    assert s'.history == s.history + [AddLine(a, b)];
    JoinLinesSnoc(s.history, AddLine(a, b));
  }
}

=== FILE: text.dfy ===
/**
 * The handful of Python string operations the servers and the client rely on:
 * `str(int)`, `int(str)` (decimal literals only), `"\n".join(...)` and its
 * inverse `str.split("\n")`.
 */
module Text {
  import opened Wrappers

  predicate IsDigit(c: char)
  {
    '0' <= c <= '9'
  }

  predicate AllDigits(s: string)
  {
    forall i :: 0 <= i < |s| ==> IsDigit(s[i])
  }

  function DigitValue(c: char): nat
    requires IsDigit(c)
  {
    c as int - '0' as int
  }

  function DigitChar(d: nat): (c: char)
    requires d < 10
    ensures IsDigit(c) && DigitValue(c) == d
  {
    (d + '0' as int) as char
  }

  /** Decimal digits of a natural number, without leading zeros. */
  function NatToString(n: nat): (s: string)
    ensures |s| > 0 && AllDigits(s)
    ensures n > 0 ==> s[0] != '0'
    decreases n
  {
    if n < 10 then [DigitChar(n)] else NatToString(n / 10) + [DigitChar(n % 10)]
  }

  /** Python's `str(n)` for an `int`: a minus sign for negative numbers, then the digits. */
  function IntToString(n: int): (s: string)
    ensures |s| > 0
    ensures s[0] == '-' <==> n < 0
    ensures s[0] == '-' || IsDigit(s[0])
    ensures '\n' !in s && ' ' !in s
    ensures n == 0 ==> s == "0"
    ensures n > 0 ==> s[0] != '0'
    ensures n < 0 ==> |s| > 1 && s[1] != '0'
  {
    var digits := NatToString(if n < 0 then -n else n);
    assert IsDigit(digits[0]);
    assert forall i :: 0 <= i < |digits| ==> digits[i] != '\n' && digits[i] != ' ';
    if n < 0 then "-" + digits else digits
  }

  /** The value of a string of decimal digits, most significant first. */
  function DigitsValue(s: string): nat
    requires AllDigits(s)
    decreases |s|
  {
    if |s| == 0 then 0 else DigitsValue(s[..|s| - 1]) * 10 + DigitValue(s[|s| - 1])
  }

  /** An optional sign followed by at least one decimal digit. */
  predicate IsIntLiteral(s: string)
  {
    var body := if |s| > 0 && (s[0] == '-' || s[0] == '+') then s[1..] else s;
    |body| > 0 && AllDigits(body)
  }

  /**
   * Python's `int(s)` restricted to an optional sign and decimal digits;
   * `None` for anything outside that subset, including some strings Python's
   * `int()` accepts (surrounding whitespace, `_` separators, non-ASCII digits).
   */
  function ParseInt(s: string): (r: Option<int>)
    ensures r.Some? <==> IsIntLiteral(s)
    ensures r.Some? && |s| > 0 && s[0] == '-' ==> r.value <= 0
    ensures r.Some? && |s| > 0 && s[0] != '-' ==> r.value >= 0
  {
    if |s| == 0 then None
    else if s[0] == '-' || s[0] == '+' then
      var digits := s[1..];
      if |digits| > 0 && AllDigits(digits) then
        var magnitude: int := DigitsValue(digits);
        Some(if s[0] == '-' then -magnitude else magnitude)
      else None
    else if AllDigits(s) then Some(DigitsValue(s))
    else None
  }

  lemma {:induction false} DigitsValueOfNatToString(n: nat)
    ensures DigitsValue(NatToString(n)) == n
    decreases n
  {
    if n >= 10 {
      var s := NatToString(n / 10);
      var t := s + [DigitChar(n % 10)];
      assert t[..|t| - 1] == s;
      DigitsValueOfNatToString(n / 10);
    }
  }

  /** `int(str(n)) == n`: the integer printer and parser are inverse. */
  lemma ParseIntOfIntToString(n: int)
    ensures ParseInt(IntToString(n)) == Some(n)
  {
    var m: nat := if n < 0 then -n else n;
    var digits := NatToString(m);
    DigitsValueOfNatToString(m);
    if n < 0 {
      assert ("-" + digits)[1..] == digits;
    }
  }

  /** `k` zero digits. */
  function Zeros(k: nat): (z: string)
    ensures |z| == k && AllDigits(z)
  {
    seq(k, _ => '0')
  }

  /** A string of zeros has value zero. */
  lemma {:induction false} ZerosValue(k: nat)
    ensures DigitsValue(Zeros(k)) == 0
  {
    if k > 0 {
      var z := Zeros(k);
      assert z[..k - 1] == Zeros(k - 1);
      assert z[k - 1] == '0';
      ZerosValue(k - 1);
    }
  }

  /** Leading zeros do not change the value of a digit string. */
  lemma {:induction false} DigitsValuePadded(k: nat, t: string)
    requires AllDigits(t)
    ensures AllDigits(Zeros(k) + t)
    ensures DigitsValue(Zeros(k) + t) == DigitsValue(t)
    decreases |t|
  {
    var s := Zeros(k) + t;
    assert forall i :: 0 <= i < |s| ==> IsDigit(s[i]) by {
      forall i | 0 <= i < |s|
        ensures IsDigit(s[i])
      {
        if i < k { assert s[i] == Zeros(k)[i]; } else { assert s[i] == t[i - k]; }
      }
    }
    if |t| == 0 {
      assert s == Zeros(k);
      ZerosValue(k);
    } else {
      assert s[..|s| - 1] == Zeros(k) + t[..|t| - 1];
      assert s[|s| - 1] == t[|t| - 1];
      DigitsValuePadded(k, t[..|t| - 1]);
    }
  }

  /** A non-empty digit string reads as its value. */
  lemma ParseIntOfDigits(body: string)
    requires |body| > 0 && AllDigits(body)
    ensures ParseInt(body) == Some(DigitsValue(body) as int)
  {
    assert IsDigit(body[0]);
  }

  /** A sign followed by a non-empty digit string reads as the signed value. */
  lemma ParseIntOfSignedDigits(sign: char, body: string)
    requires sign == '+' || sign == '-'
    requires |body| > 0 && AllDigits(body)
    ensures ParseInt([sign] + body) == Some(if sign == '-' then -(DigitsValue(body) as int) else DigitsValue(body))
  {
    var s := [sign] + body;
    assert s[0] == sign;
    assert s[1..] == body;
    var magnitude: int := DigitsValue(body);
    assert ParseInt(s) == Some(if sign == '-' then -magnitude else magnitude);
  }

  /** An optional sign followed by a non-empty digit string reads as the signed value. */
  lemma ParseIntOfLiteral(sign: string, body: string)
    requires sign == "" || sign == "+" || sign == "-"
    requires |body| > 0 && AllDigits(body)
    ensures ParseInt(sign + body) == Some(if sign == "-" then -(DigitsValue(body) as int) else DigitsValue(body))
  {
    if sign == "" {
      assert sign + body == body;
      ParseIntOfDigits(body);
    } else {
      assert sign + body == [sign[0]] + body;
      ParseIntOfSignedDigits(sign[0], body);
    }
  }

  /**
   * The value of any decimal literal, canonical or not: an optional sign,
   * `k` leading zeros and the digits of `m` read as `m` or `-m`, so that
   * `int("007") == 7`, `int("+5") == 5` and `int("-0") == 0`.
   */
  lemma ParseIntPadded(sign: string, k: nat, m: nat)
    requires sign == "" || sign == "+" || sign == "-"
    ensures ParseInt(sign + Zeros(k) + NatToString(m)) == Some(if sign == "-" then -(m as int) else m)
  {
    var digits := NatToString(m);
    var body := Zeros(k) + digits;
    DigitsValuePadded(k, digits);
    DigitsValueOfNatToString(m);
    assert DigitsValue(body) == m;
    ParseIntOfLiteral(sign, body);
    assert sign + Zeros(k) + digits == sign + body;
  }

  /** Distinct integers print differently. */
  lemma IntToStringInjective(m: int, n: int)
    requires IntToString(m) == IntToString(n)
    ensures m == n
  {
    ParseIntOfIntToString(m);
    ParseIntOfIntToString(n);
  }

  /** Python's `"\n".join(lines)`. */
  function JoinLines(lines: seq<string>): string
  {
    if |lines| == 0 then ""
    else if |lines| == 1 then lines[0]
    else lines[0] + "\n" + JoinLines(lines[1..])
  }

  /** Python's `s.split("\n")`: always at least one piece, none containing a newline. */
  function SplitLines(s: string): (r: seq<string>)
    ensures |r| > 0
    ensures forall i :: 0 <= i < |r| ==> '\n' !in r[i]
  {
    if |s| == 0 then [""]
    else
      var rest := SplitLines(s[1..]);
      if s[0] == '\n' then [""] + rest
      else [[s[0]] + rest[0]] + rest[1..]
  }

  predicate NoNewlines(lines: seq<string>)
  {
    forall i :: 0 <= i < |lines| ==> '\n' !in lines[i]
  }

  lemma NoNewlinesConcat(xs: seq<string>, ys: seq<string>)
    requires NoNewlines(xs) && NoNewlines(ys)
    ensures NoNewlines(xs + ys)
  {
    forall i | 0 <= i < |xs + ys|
      ensures '\n' !in (xs + ys)[i]
    {
      if i < |xs| {
        assert (xs + ys)[i] == xs[i];
      } else {
        assert (xs + ys)[i] == ys[i - |xs|];
      }
    }
  }

  /** Appending a line to a non-empty list appends it, after a newline, to the joined text. */
  lemma {:induction false} JoinLinesSnoc(lines: seq<string>, line: string)
    requires |lines| > 0
    ensures JoinLines(lines + [line]) == JoinLines(lines) + "\n" + line
    decreases |lines|
  {
    if |lines| == 1 {
      assert (lines + [line])[1..] == [line];
    } else {
      assert (lines + [line])[1..] == lines[1..] + [line];
      JoinLinesSnoc(lines[1..], line);
    }
  }

  /** The joined text starts with the first line. */
  lemma JoinLinesStartsWithFirst(lines: seq<string>)
    requires |lines| > 0
    ensures |JoinLines(lines)| >= |lines[0]|
    ensures JoinLines(lines)[..|lines[0]|] == lines[0]
  {
  }

  lemma {:induction false} SplitLinesOfLine(line: string)
    requires '\n' !in line
    ensures SplitLines(line) == [line]
    decreases |line|
  {
    if |line| > 0 {
      SplitLinesOfLine(line[1..]);
      assert [line[0]] + line[1..] == line;
    }
  }

  lemma {:induction false} SplitLinesCons(line: string, rest: string)
    requires '\n' !in line
    ensures SplitLines(line + "\n" + rest) == [line] + SplitLines(rest)
    decreases |line|
  {
    var s := line + "\n" + rest;
    if |line| == 0 {
      assert s[1..] == rest;
    } else {
      assert s[1..] == line[1..] + "\n" + rest;
      SplitLinesCons(line[1..], rest);
      assert [line[0]] + line[1..] == line;
    }
  }

  /** The joined text of newline-free lines determines them, whenever there is at least one. */
  lemma JoinLinesRecoverable(lines: seq<string>)
    ensures |lines| > 0 && NoNewlines(lines) ==> SplitLines(JoinLines(lines)) == lines
  {
    if |lines| > 0 && NoNewlines(lines) {
      SplitJoinLines(lines);
    }
  }

  /** `"\n".join(lines).split("\n") == lines` for a non-empty list of newline-free lines. */
  lemma {:induction false} SplitJoinLines(lines: seq<string>)
    requires |lines| > 0 && NoNewlines(lines)
    ensures SplitLines(JoinLines(lines)) == lines
    decreases |lines|
  {
    if |lines| == 1 {
      SplitLinesOfLine(lines[0]);
    } else {
      SplitLinesCons(lines[0], JoinLines(lines[1..]));
      SplitJoinLines(lines[1..]);
    }
  }
}

=== FILE: wrappers.dfy ===
/** Option and Result types shared by the model. */
module Wrappers {

  /** A value that may be absent: Python's `None` versus a present value. */
  datatype Option<+T> = None | Some(value: T) {

    /** The held value, or `default` when absent. */
    function GetOr(default: T): T
    {
      match this
      case Some(v) => v
      case None => default
    }
  }

  /** Either a computed value or the error the operation raises. */
  datatype Result<+R, +E> = Success(value: R) | Failure(error: E)
}
